=== FILE: README.md ===
# IoT connection and devices — a Dafny model

This project models the connection layer of a small IoT example program
(`main.py`) and proves properties about it.

- A `Connection` holds an optional name, an optional IP address, an optional
  port and a status (`CONNECTED` or `DISCONNECTED`).
- `connect` checks the address format with a regular expression. It raises
  `ValueError("Invalid IP address format")` when the check fails. Otherwise it
  sets the three fields and marks the connection connected.
- `disconnect` clears the three fields.
- `send` and `receive` only read the status. When the connection is
  disconnected they log a warning instead of raising.
- An `IOTDevice` (and its two kinds, `Light` and `MotionSensor`) shares one
  connection with other devices and passes every call on to it. Its `connect`
  catches the error and logs it, and an enum member sent through it is
  replaced by the member's value.

The model has these modules, one file each:

- `Wrappers` (`wrappers.dfy`): `Option`, `Result` and `Outcome`. An exception
  becomes a `Failure`/`Fail` value.
- `Decimal` (`decimal.dfy`): `str(int)`, which renders the port in the
  device's log line.
- `IpAddress` (`ip_address.dfy`): the address check.
  - The pattern is modelled the way `re.match` runs it: a greedy `\d{1,3}`,
    and a closing `$` that also accepts one final newline.
  - It is proved equal to a reference definition: split on dots, four
    fields, each one to three digits.
- `Diagnostics` (`diagnostics.dfy`): the `logging` calls, as a `Log` object
  whose `events` sequence grows by one event per call.
- `Messages` (`messages.dfy`): `LightMessage`, `MotionMessage`, and what
  `send` turns a message into.
- `Connections` (`connection.dfy`): the `Connection` class.
  - Its fields are updated in place by `Connect` and `Disconnect`.
  - Each method's new state is stated through a pure function of the old
    attributes (`AfterConnect`, `AfterDisconnect`, `SendEvent`,
    `ReceiveReply`, `ReceiveEvents`).
  - Lemmas cover whole call sequences, via `Run`.
- `Devices` (`device.dfy`): the `Device` class, plus the demonstration
  script as written and as intended.

`__init__` sets the attributes to None and DISCONNECTED (main.py:15-18) and
then calls `connect()` with its defaults (main.py:19). The default address
`''` fails the check, so `Connection()` always raises. The model states this
as written (`Connections.Connection.New`) and records it under Findings.

## Model

| member | source | states |
|---|---|---|
| IpAddress.AtEnd | main.py:23 | `$` matches exactly at the end of the string or before one final newline: what is left is at most one character, and that one a newline |
| IpAddress.MatchGroups | main.py:23 | a match of the groups is anchored where it starts: the matched text is non-empty and begins with a digit |
| IpAddress.IsValidIp | main.py:21-24 | `re.match` anchors at the start of the string, so an accepted address is non-empty and begins with a digit |
| IpAddress.DigitRun | main.py:23 | the greedy `\d{1,3}` takes at most three characters, all digits, and stops short of three only before a non-digit or the end |
| IpAddress.ValidIpIffDottedQuad | main.py:21-24 | the address check accepts a string exactly when splitting it on '.' gives four fields, each one to three ASCII digits, where the last may also end in one '\n' |
| IpAddress.Split | main.py:23 | the reference split yields at least one field, none holding a '.', and joining the fields with '.' gives back the string |
| IpAddress.SplitJoin | main.py:23 | splitting the dot-join of dot-free fields gives back those fields |
| IpAddress.FourGroupsAccepted | main.py:21-24 | any four groups of one to three digits joined by dots pass the check |
| IpAddress.FourGroupsNewlineAccepted | main.py:23-24 | the same four groups followed by one newline also pass, because `$` matches before a final newline |
| IpAddress.JoinedFieldsRejected | main.py:21-24 | dot-free fields that are not four groups (the last perhaps with one newline) join into a rejected string |
| IpAddress.FiveGroupsRejected | main.py:23-24 | any five groups joined by dots fail the check |
| IpAddress.TwoNewlinesRejected | main.py:23-24 | four groups followed by two newlines fail: `$` admits only one |
| IpAddress.ValidIpIsFourGroups | main.py:21-24 | every accepted address is four such groups joined by dots, optionally followed by one newline |
| IpAddress.MatchGroupsLength | main.py:23 | a string matched by k dot-separated groups has between 2k-1 and 4k characters |
| IpAddress.ValidIpLength | main.py:21-24 | an accepted address has between 7 and 16 characters |
| IpAddress.AcceptsOutOfRange | main.py:23-24 | "999.999.999.999" passes: the groups are never compared with 255 |
| IpAddress.AcceptsPrivateAddress | main.py:23-24 | "192.168.1.1", the demo's address, passes |
| IpAddress.AcceptsOneTrailingNewline | main.py:23-24 | "1.2.3.4\n" passes |
| IpAddress.RejectsLongGroup | main.py:23-24 | a group of four digits fails |
| IpAddress.RejectsThreeGroups | main.py:23-24 | "1.2.3", with three groups, fails |
| IpAddress.RejectsNonAddresses | main.py:19-24 | the empty string (the constructor's default), "not-an-ip" and an address after a leading space all fail |
| Decimal.NatToText | main.py:74 | `str` of a non-negative port is digits only, with a leading zero only for zero itself |
| Decimal.IntToText | main.py:74 | `str` of any integer is digits after an optional minus sign; the sign is there exactly for negative numbers, and the digits start with 0 only for zero itself, whose text is exactly "0", so there is no leading zero and no "-0" |
| Decimal.NatTextRoundTrip | main.py:74 | reading back the digits of a non-negative number gives the number |
| Decimal.IntTextRoundTrip | main.py:74 | reading back the text of any integer gives the integer, so the logged port is unambiguous |
| Messages.LightValue | main.py:88-90 | "Turn on" is the value of TURN_ON and of no other member, and "Turn off" that of TURN_OFF |
| Messages.MotionValue | main.py:96-98 | "Motion detected!" is the value of MOTION_DETECTED and of no other member, and "No motion detected." that of NO_MOTION |
| Messages.Payload | main.py:49-53 | a string is sent as it is, and an enum member is sent as its value |
| Messages.CatalogPayloadsDistinct | main.py:88-98 | two enum messages send the same text exactly when they are the same member |
| Connections.StatusWord | main.py:47 | the lower-cased status name in the warnings is "connected" exactly for CONNECTED and "disconnected" exactly for DISCONNECTED |
| Connections.ErrorMessage | main.py:29 | the text of the `connect` error is "Invalid IP address format" |
| Connections.Consistent | main.py:15-18 | the invariant leaves one state when DISCONNECTED, the cleared one, and has name, address and port all set when CONNECTED |
| Diagnostics.Log.Emit | main.py:45-47 | each logging call appends exactly one event, with its level and text, after those already logged |
| Connections.ConnectResult | main.py:26-33 | `connect` fails exactly when the address check fails, always with the invalid-format error; on success the connection is CONNECTED with the given name, address and port, and consistent |
| Connections.AfterConnect | main.py:26-33 | a rejected `connect` leaves every attribute as it was; an accepted one sets name, address and port and marks CONNECTED; consistency is preserved |
| Connections.AfterDisconnect | main.py:35-40 | after `disconnect` the status is DISCONNECTED and all three fields are None, from any state |
| Connections.SendEvent | main.py:42-47 | a send logs at info level exactly when connected, with "Sent: " before the payload; otherwise it logs the warning "Cannot send. The connection is disconnected." |
| Connections.ReceiveReply | main.py:55-61 | `receive` returns "Received: OK" exactly when connected, otherwise "" |
| Connections.ReceiveEvents | main.py:55-61 | `receive` logs nothing exactly when connected, otherwise one warning "Cannot receive. The connection is disconnected." |
| Connections.Connection.Allocate | main.py:14-18 | the attribute assignments of `__init__` give a disconnected connection with nothing set, which satisfies the invariant |
| Connections.Connection.New | main.py:14-19 | `Connection()` as written always fails with the invalid-format error |
| Connections.Connection.Connect | main.py:26-33 | returns the error exactly for an address that fails the check; the attributes become `AfterConnect` of the old ones; the invariant is kept |
| Connections.Connection.Disconnect | main.py:35-40 | the attributes become `AfterDisconnect` of the old ones, and the invariant holds |
| Connections.Connection.SendMessage | main.py:42-47 | appends exactly one event, `SendEvent` of the current status and message, to the log, and changes no attribute |
| Connections.Connection.Send | main.py:49-53 | logs `SendEvent` of the status and the message's payload |
| Connections.Connection.Receive | main.py:55-61 | returns `ReceiveReply` of the status and appends `ReceiveEvents` of it to the log |
| Connections.Step | main.py:26-61 | `send`, `receive` and a rejected `connect` leave the attributes unchanged, and every call preserves consistency |
| Connections.Run | main.py:26-61 | a sequence of calls none of which is an accepted `connect` or a `disconnect` leaves the attributes as they were |
| Connections.LastChange | main.py:26-40 | the call it picks (an accepted `connect` or a `disconnect`) is one of the calls and does change state |
| Connections.LastChangeNoneIff | main.py:26-40 | there is no last state-changing call exactly when none of the calls is an accepted `connect` or a `disconnect` |
| Connections.LastChangeIsLast | main.py:26-40 | the call picked stands at some position of the sequence after which no call changes state, so it is the last change |
| Connections.RunKeepsConsistent | main.py:15-18 | from a consistent state, any sequence of calls keeps name, address and port set exactly when CONNECTED |
| Connections.RunFollowsLastChange | main.py:26-40 | after any sequence of calls the attributes are set by the last accepted `connect` or cleared by the last `disconnect`, or are the starting ones when neither happened |
| Connections.RejectedConnectChangesNothing | main.py:28-29 | appending a rejected `connect` to any call sequence leaves the final attributes as they were |
| Connections.DisconnectIdempotent | main.py:35-40 | disconnecting twice is the same as disconnecting once |
| Connections.NeverConnectedIsCleared | main.py:15-18 | a connection that was never connected successfully, or was last disconnected, is cleared, and `receive` answers "" |
| Devices.ConnectEvent | main.py:67-76 | the device logs at error level exactly when the address fails the check, with "Connection error: Invalid IP address format"; otherwise it logs "Connected to NAME at IP:PORT" |
| Devices.Device.constructor | main.py:64-65 | a new device holds the connection it was given, shared and not copied |
| Devices.Device.Connect | main.py:71-76 | never raises; the shared connection becomes `AfterConnect` of its old attributes; exactly `ConnectEvent` is appended to the log |
| Devices.Device.Disconnect | main.py:78-80 | clears the shared connection and appends the info line "Disconnected" |
| Devices.Device.Send | main.py:82-83 | logs what the shared connection's `send` logs for its current status |
| Devices.Device.Receive | main.py:85-86 | returns and logs what the shared connection's `receive` does for its current status |
| Devices.TurnOnLine | main.py:44-52 | a connected send of TURN_ON logs the info line "Sent: Turn on" |
| Devices.MotionDetectedLine | main.py:44-52 | a connected send of MOTION_DETECTED logs the info line "Sent: Motion detected!" |
| Devices.SharedConnection | main.py:63-86 | for any accepted address and any two messages, two devices on one connection see each other's changes: after the first connects, the second's send is logged as sent; after the first disconnects, the second's send only warns |
| Devices.Demo | main.py:104-107 | the demonstration script stops at `Connection()` with the invalid-format error |
| Devices.ConnectedDemo | main.py:109-120 | from a cleared connection and any accepted address, the script's connect, light send, motion-sensor send and disconnect log exactly the two sends as sent and leave the connection cleared; during the sends the connection is CONNECTED with the given name and address and port 8080 |
| Devices.IntendedDemo | main.py:107-120 | with a connection that starts disconnected and the script's own address 192.168.1.1, the connection is CONNECTED to "user" at 192.168.1.1 on port 8080 during the two sends, both are logged as sent, and the connection ends cleared |

## Left out

- `\d` is narrowed to the ASCII digits 0-9. Python's `re` on `str` also
  matches other Unicode decimal digits.
- The logging backend is left out: handlers, formatting, and the level
  filter set by `logging.basicConfig`. Every logging call is recorded as a
  level and a text.
- `Light` and `MotionSensor` are one `Devices.Device`. Their narrower
  argument annotations are not enforced when the program runs, and their
  `send` only passes the call on.
- `send` with an `Enum` member whose value is not a string (for example a
  `ConnectionStatus`) and `send` of a non-string value are left out. A
  message is a string or a member of one of the two message catalogs.
- `connect`'s `name` and `port` are taken as annotated, a `str` and an
  `int`. Python does not enforce the annotations, so `connect(None,
  '1.2.3.4')` or a `port` of None would leave a None attribute on a
  CONNECTED connection; such arguments are left out, and the invariant
  proved by `Connections.RunKeepsConsistent` holds for annotated arguments
  only.
- The traceback of the uncaught `ValueError` with which `Connection()` at
  main.py:107 ends the demonstration script, before its connect, sends and
  disconnect run, is left out. `Devices.Demo` returns the error instead.
- Threads are left out. The program has none, and nothing guards the
  shared connection.

## Findings

| source | as written | input that shows it | evidently intended | confidence | as-written member | corrected member |
|---|---|---|---|---|---|---|
| main.py:19 | `__init__` ends by calling `connect()` with its defaults, and the default address `''` fails the format check at main.py:28-29, so every construction raises | `Connection()` | a new connection starts disconnected with nothing set, as the attribute assignments at main.py:15-18 prepare | high; not executed | Connections.Connection.New | Connections.Connection.Allocate |

=== FILE: connection.dfy ===
/** `ConnectionStatus` and `Connection`: one endpoint's name, address, port and
    status, changed in place by `connect` and `disconnect`, and read by `send`
    and `receive`. */
module Connections {
  import opened Wrappers
  import opened IpAddress
  import opened Diagnostics
  import opened Messages

  /** `ConnectionStatus`. */
  datatype Status = Connected | Disconnected

  /** `status.name.lower()`. */
  function StatusWord(s: Status): (w: string)
    ensures w == "connected" <==> s == Connected
    ensures w == "disconnected" <==> s == Disconnected
  {
    match s
    case Connected => "connected"
    case Disconnected => "disconnected"
  }

  /** `Connection.DEFAULT_PORT`. */
  const DEFAULT_PORT: int := 8080

  /** The one exception of the program: the `ValueError` of `connect`. */
  datatype ConnectError = InvalidIpFormat

  /** `str(e)` of that exception. */
  function ErrorMessage(e: ConnectError): (m: string)
    ensures m == "Invalid IP address format"
  {
    match e
    case InvalidIpFormat => "Invalid IP address format"
  }

  /** The four attributes of a connection, as one value. */
  datatype Attributes = Attributes(name: Option<string>, ip: Option<string>, port: Option<int>, status: Status)

  /** The object invariant: the status is CONNECTED exactly when name, address
      and port are set, and the three are set or cleared together. */
  predicate Consistent(a: Attributes)
    ensures Consistent(a) && a.status == Disconnected ==> a == Cleared
    ensures Consistent(a) && a.status == Connected ==> a.name.Some? && a.ip.Some? && a.port.Some?
  {
    if a.status == Connected then a.name.Some? && a.ip.Some? && a.port.Some?
    else a.name.None? && a.ip.None? && a.port.None?
  }

  /** The attributes `__init__` starts from and `disconnect` leaves. */
  const Cleared: Attributes := Attributes(None, None, None, Disconnected)

  // ---------------------------------------------------------------------------
  // What each call does, as functions of the attributes
  // ---------------------------------------------------------------------------

  /** `connect(name, ip, port)`: the attributes it sets, or the error it
      raises when the address fails the format check. */
  function ConnectResult(name: string, ip: string, port: int): (r: Result<Attributes, ConnectError>)
    ensures r.Failure? <==> !IsValidIp(ip)
    ensures r.Failure? ==> r.error == InvalidIpFormat
    ensures r.Success? ==> r.value.status == Connected && Consistent(r.value)
    ensures r.Success? ==> r.value.name == Some(name) && r.value.ip == Some(ip) && r.value.port == Some(port)
  {
    if IsValidIp(ip) then Success(Attributes(Some(name), Some(ip), Some(port), Connected))
    else Failure(InvalidIpFormat)
  }

  /** The attributes after `connect`: the new ones, or the old ones untouched
      when it raised. */
  function AfterConnect(a: Attributes, name: string, ip: string, port: int): (b: Attributes)
    ensures !IsValidIp(ip) ==> b == a
    ensures IsValidIp(ip) ==> b.status == Connected && b.name == Some(name) && b.ip == Some(ip) && b.port == Some(port)
    ensures Consistent(a) ==> Consistent(b)
  {
    match ConnectResult(name, ip, port)
    case Success(c) => c
    case Failure(_) => a
  }

  /** The attributes after `disconnect`, whatever they were: all cleared. */
  function AfterDisconnect(a: Attributes): (b: Attributes)
    ensures b.status == Disconnected && b.name.None? && b.ip.None? && b.port.None?
    ensures Consistent(b)
  {
    Cleared
  }

  /** The event `_send_message` logs: the payload at info level when
      connected, a warning naming the status otherwise. */
  function SendEvent(status: Status, payload: string): (e: Event)
    ensures e.level == Info <==> status == Connected
    ensures status == Connected ==> e.text == "Sent: " + payload
    ensures status == Disconnected ==> e == Event(Warning, "Cannot send. The connection is disconnected.")
  {
    if status == Connected then Event(Info, "Sent: " + payload)
    else Event(Warning, "Cannot send. The connection is " + StatusWord(status) + ".")
  }

  /** What `receive` returns: the fixed acknowledgement when connected, the
      empty string otherwise. */
  function ReceiveReply(status: Status): (reply: string)
    ensures reply == "Received: OK" <==> status == Connected
    ensures status == Disconnected ==> reply == ""
  {
    if status == Connected then "Received: OK" else ""
  }

  /** What `receive` logs: nothing when connected, one warning otherwise. */
  function ReceiveEvents(status: Status): (events: seq<Event>)
    ensures events == [] <==> status == Connected
    ensures status == Disconnected ==> events == [Event(Warning, "Cannot receive. The connection is disconnected.")]
  {
    if status == Connected then []
    else
      var text := "Cannot receive. The connection is " + StatusWord(status) + ".";
      assert text == "Cannot receive. The connection is disconnected.";
      [Event(Warning, text)]
  }

  // ---------------------------------------------------------------------------
  // The object
  // ---------------------------------------------------------------------------

  class Connection {
    var name: Option<string>
    var ip: Option<string>
    var port: Option<int>
    var status: Status
    /** The process-wide log that the logging calls write to. */
    const log: Log

    function Attrs(): Attributes
      reads this
    {
      Attributes(name, ip, port, status)
    }

    ghost predicate Valid()
      reads this
    {
      Consistent(Attrs())
    }

    /** The attribute assignments of `__init__`, without its closing call to
        `connect()`: a disconnected connection with nothing set. */
    constructor Allocate(log: Log)
      ensures Attrs() == Cleared && Valid()
      ensures this.log == log
    {
      name := None;
      ip := None;
      port := None;
      status := Disconnected;
      this.log := log;
    }

    /** `Connection()` as written: `__init__` ends by calling `connect()` with
        the default address '', which fails the format check, so construction
        always raises and no object is returned. */
    static method New(log: Log) returns (r: Result<Connection, ConnectError>)
      ensures r == Failure(InvalidIpFormat)
    {
      var c := new Connection.Allocate(log);
      var outcome := c.Connect();
      r := if outcome.Fail? then Failure(outcome.error) else Success(c);
    }

    /** `connect(name='', ip='', port=DEFAULT_PORT)`: raises on an address that
        fails the check and leaves every attribute as it was; otherwise sets
        name, address and port and marks the connection CONNECTED. */
    method Connect(name: string := "", ip: string := "", port: int := DEFAULT_PORT)
      returns (outcome: Outcome<ConnectError>)
      modifies this
      ensures outcome == if IsValidIp(ip) then Pass else Fail(InvalidIpFormat)
      ensures Attrs() == AfterConnect(old(Attrs()), name, ip, port)
      ensures old(Valid()) ==> Valid()
    {
      if !IsValidIp(ip) {
        return Fail(InvalidIpFormat);
      }
      this.name := Some(name);
      this.ip := Some(ip);
      this.port := Some(port);
      status := Connected;
      outcome := Pass;
    }

    /** `disconnect()`: never fails, clears name, address and port and marks
        the connection DISCONNECTED, from either status. */
    method Disconnect()
      modifies this
      ensures Attrs() == AfterDisconnect(old(Attrs()))
      ensures Valid()
    {
      name := None;
      ip := None;
      port := None;
      status := Disconnected;
    }

    /** `_send_message(message)`: logs the message when connected, a warning
        otherwise; never raises and changes no attribute. */
    method SendMessage(message: string)
      modifies log
      ensures log.events == old(log.events) + [SendEvent(status, message)]
    {
      if status == Connected {
        log.Emit(Event(Info, "Sent: " + message));
      } else {
        log.Emit(Event(Warning, "Cannot send. The connection is " + StatusWord(status) + "."));
      }
    }

    /** `send(message)`: an enum member is replaced by its value first. */
    method Send(message: Message)
      modifies log
      ensures log.events == old(log.events) + [SendEvent(status, Payload(message))]
    {
      SendMessage(Payload(message));
    }

    /** `receive()`: the acknowledgement when connected; otherwise a warning
        and the empty string. Changes no attribute. */
    method Receive() returns (reply: string)
      modifies log
      ensures reply == ReceiveReply(status)
      ensures log.events == old(log.events) + ReceiveEvents(status)
    {
      if status == Connected {
        return "Received: OK";
      } else {
        log.Emit(Event(Warning, "Cannot receive. The connection is " + StatusWord(status) + "."));
        return "";
      }
    }
  }

  // ---------------------------------------------------------------------------
  // Sequences of calls
  // ---------------------------------------------------------------------------

  /** A call on a connection. */
  datatype Call =
    | ConnectCall(name: string, ip: string, port: int)
    | DisconnectCall
    | SendCall(message: Message)
    | ReceiveCall

  /** The attributes after one call: `send` and `receive` read them only,
      and a rejected `connect` leaves them as they were. */
  function Step(a: Attributes, c: Call): (b: Attributes)
    ensures !Changes(c) ==> b == a
    ensures Consistent(a) ==> Consistent(b)
  {
    match c
    case ConnectCall(name, ip, port) => AfterConnect(a, name, ip, port)
    case DisconnectCall => AfterDisconnect(a)
    case SendCall(_) => a
    case ReceiveCall => a
  }

  /** The attributes after a sequence of calls, applied in order. */
  function Run(a: Attributes, calls: seq<Call>): (r: Attributes)
    ensures (forall c :: c in calls ==> !Changes(c)) ==> r == a
    decreases |calls|
  {
    if calls == [] then a
    else
      var front := calls[..|calls| - 1];
      assert forall c :: c in front ==> c in calls;
      Step(Run(a, front), calls[|calls| - 1])
  }

  /** Whether a call changes the attributes: a `connect` whose address passes
      the check, or a `disconnect`. */
  predicate Changes(c: Call)
  {
    c.DisconnectCall? || (c.ConnectCall? && IsValidIp(c.ip))
  }

  /** The last call of the sequence that changes the attributes, if any. */
  function LastChange(calls: seq<Call>): (r: Option<Call>)
    ensures r.Some? ==> Changes(r.value) && r.value in calls
    decreases |calls|
  {
    if calls == [] then None
    else if Changes(calls[|calls| - 1]) then Some(calls[|calls| - 1])
    else LastChange(calls[..|calls| - 1])
  }

  /** LastChange is None exactly when no call changes the attributes. */
  lemma {:induction false} LastChangeNoneIff(calls: seq<Call>)
    ensures LastChange(calls).None? <==> forall j :: 0 <= j < |calls| ==> !Changes(calls[j])
    decreases |calls|
  {
    if calls != [] && !Changes(calls[|calls| - 1]) {
      var front := calls[..|calls| - 1];
      LastChangeNoneIff(front);
      assert forall j :: 0 <= j < |front| ==> front[j] == calls[j];
    }
  }

  /** No call after position `i` changes the attributes. */
  predicate SettledAfter(calls: seq<Call>, i: nat)
  {
    forall j :: i < j < |calls| ==> !Changes(calls[j])
  }

  /** A call that changes nothing keeps the calls before it settled. */
  lemma SettledExtends(calls: seq<Call>, i: nat)
    requires calls != [] && !Changes(calls[|calls| - 1])
    requires SettledAfter(calls[..|calls| - 1], i)
    ensures SettledAfter(calls, i)
  {
    var front := calls[..|calls| - 1];
    forall j | i < j < |calls|
      ensures !Changes(calls[j])
    {
      if j < |front| {
        assert front[j] == calls[j];
      }
    }
  }

  /** A LastChange is a call of the sequence after which no call changes the
      attributes. */
  lemma {:induction false} LastChangeIsLast(calls: seq<Call>)
    requires LastChange(calls).Some?
    ensures exists i :: 0 <= i < |calls| && calls[i] == LastChange(calls).value && SettledAfter(calls, i)
    decreases |calls|
  {
    var n := |calls| - 1;
    if Changes(calls[n]) {
      assert SettledAfter(calls, n);
    } else {
      var front := calls[..n];
      LastChangeIsLast(front);
      var i :| 0 <= i < |front| && front[i] == LastChange(front).value && SettledAfter(front, i);
      SettledExtends(calls, i);
      assert calls[i] == front[i];
    }
  }

  /** The invariant holds after every sequence of calls that starts from a
      state where it holds. */
  lemma {:induction false} RunKeepsConsistent(a: Attributes, calls: seq<Call>)
    requires Consistent(a)
    ensures Consistent(Run(a, calls))
    decreases |calls|
  {
    if calls != [] {
      RunKeepsConsistent(a, calls[..|calls| - 1]);
    }
  }

  /** The attributes are decided by the last call that changes them: sends,
      receives and rejected connects leave no trace, a disconnect clears
      everything, and an accepted connect sets exactly its own arguments. */
  lemma {:induction false} RunFollowsLastChange(a: Attributes, calls: seq<Call>)
    ensures Run(a, calls) == match LastChange(calls)
      case None => a
      case Some(ConnectCall(name, ip, port)) => Attributes(Some(name), Some(ip), Some(port), Connected)
      case Some(_) => Cleared
    decreases |calls|
  {
    if calls != [] {
      RunFollowsLastChange(a, calls[..|calls| - 1]);
    }
  }

  /** Connecting with an address that fails the check changes nothing, also
      after earlier calls. */
  lemma RejectedConnectChangesNothing(a: Attributes, calls: seq<Call>, name: string, ip: string, port: int)
    requires !IsValidIp(ip)
    ensures Run(a, calls + [ConnectCall(name, ip, port)]) == Run(a, calls)
  {
    assert (calls + [ConnectCall(name, ip, port)])[..|calls|] == calls;
  }

  /** `disconnect` twice is `disconnect` once. */
  lemma DisconnectIdempotent(a: Attributes)
    ensures AfterDisconnect(AfterDisconnect(a)) == AfterDisconnect(a)
  {
  }

  /** A connection that was never connected successfully is disconnected
      with nothing set, and `receive` on it answers "" with a warning. */
  lemma NeverConnectedIsCleared(calls: seq<Call>)
    requires LastChange(calls).None? || LastChange(calls) == Some(DisconnectCall)
    ensures Run(Cleared, calls) == Cleared
    ensures ReceiveReply(Run(Cleared, calls).status) == ""
  {
    RunFollowsLastChange(Cleared, calls);
  }
}

=== FILE: decimal.dfy ===
/** Decimal text of integers: the `{port}` of an f-string, which Python
    renders as `str(port)`. */
module Decimal {

  predicate IsDigit(c: char)
  {
    '0' <= c <= '9'
  }

  predicate AllDigits(s: string)
  {
    forall i :: 0 <= i < |s| ==> IsDigit(s[i])
  }

  function DigitValue(c: char): (d: nat)
    requires IsDigit(c)
    ensures d < 10
  {
    c as int - '0' as int
  }

  function DigitChar(d: nat): (c: char)
    requires d < 10
    ensures IsDigit(c) && DigitValue(c) == d
  {
    ('0' as int + d) as char
  }

  /** `str(n)` for a non-negative integer: digits only, with no leading zero
      unless the number is zero itself. */
  function NatToText(n: nat): (t: string)
    ensures |t| >= 1 && AllDigits(t)
    ensures t[0] == '0' <==> n == 0
    ensures n == 0 ==> t == "0"
    decreases n
  {
    if n < 10 then [DigitChar(n)] else NatToText(n / 10) + [DigitChar(n % 10)]
  }

  /** The number a string of decimal digits denotes. */
  function TextToNat(t: string): nat
    requires AllDigits(t)
    decreases |t|
  {
    if t == [] then 0 else 10 * TextToNat(t[..|t| - 1]) + DigitValue(t[|t| - 1])
  }

  lemma {:induction false} NatTextRoundTrip(n: nat)
    ensures TextToNat(NatToText(n)) == n
  {
    if n >= 10 {
      var t := NatToText(n);
      assert t[..|t| - 1] == NatToText(n / 10);
      NatTextRoundTrip(n / 10);
    }
  }

  /** The shape of `str(i)`: digits, optionally after one minus sign. */
  predicate IsIntText(t: string)
  {
    || (|t| >= 1 && AllDigits(t))
    || (|t| >= 2 && t[0] == '-' && AllDigits(t[1..]))
  }

  /** `str(i)` for any integer: a minus sign before the digits of a negative
      number, never "-0", and no leading zero. */
  function IntToText(i: int): (t: string)
    ensures IsIntText(t)
    ensures t[0] == '-' <==> i < 0
    ensures t[0] == '0' <==> i == 0
    ensures t[0] == '-' ==> |t| >= 2 && t[1] != '0'
    ensures i == 0 ==> t == "0"
  {
    if i < 0 then "-" + NatToText(-i) else NatToText(i)
  }

  /** `int(t)` on the shape `str` produces. */
  function TextToInt(t: string): int
    requires IsIntText(t)
  {
    if |t| >= 2 && t[0] == '-' && AllDigits(t[1..]) then -(TextToNat(t[1..]) as int) else TextToNat(t)
  }

  /** `str` loses nothing: the text determines the integer. */
  lemma IntTextRoundTrip(i: int)
    ensures TextToInt(IntToText(i)) == i
  {
    var t := IntToText(i);
    if i < 0 {
      assert t[1..] == NatToText(-i);
      NatTextRoundTrip(-i);
    } else {
      NatTextRoundTrip(i);
    }
  }
}

=== FILE: device.dfy ===
/** `IOTDevice` and its two kinds, `Light` and `MotionSensor`: a device holds
    a connection it shares with others and passes every call on to it. */
module Devices {
  import opened Wrappers
  import opened Decimal
  import opened IpAddress
  import opened Diagnostics
  import opened Messages
  import opened Connections

  /** The line the device's `connect` logs: an info line naming the endpoint
      when the address is accepted, the caught error otherwise. */
  function ConnectEvent(name: string, ip: string, port: int): (e: Event)
    ensures e.level == Error <==> !IsValidIp(ip)
    ensures IsValidIp(ip) ==> e == Event(Info, "Connected to " + name + " at " + ip + ":" + IntToText(port))
    ensures !IsValidIp(ip) ==> e == Event(Error, "Connection error: Invalid IP address format")
  {
    match ConnectResult(name, ip, port)
    case Success(_) => Event(Info, "Connected to " + name + " at " + ip + ":" + IntToText(port))
    case Failure(err) =>
      var text := "Connection error: " + ErrorMessage(err);
      assert text == "Connection error: Invalid IP address format";
      Event(Error, text)
  }

  /** `IOTDevice`; a `Light` or a `MotionSensor` is the same object, since
      those classes differ only in the annotated type of `send`'s argument. */
  class Device {
    /** The shared connection; the device neither creates nor closes it. */
    const connection: Connection

    constructor (connection: Connection)
      ensures this.connection == connection
    {
      this.connection := connection;
    }

    /** `connect(name, ip, port)`: passes the call on and never lets its
        error out. An address that fails the check leaves the shared
        connection as it was and is logged as an error; otherwise the success
        is logged. */
    method Connect(name: string, ip: string, port: int)
      modifies connection, connection.log
      ensures connection.Attrs() == AfterConnect(old(connection.Attrs()), name, ip, port)
      ensures connection.log.events == old(connection.log.events) + [ConnectEvent(name, ip, port)]
    {
      var outcome := connection.Connect(name, ip, port);
      match outcome
      case Pass =>
        connection.log.Emit(Event(Info, "Connected to " + name + " at " + ip + ":" + IntToText(port)));
      case Fail(err) =>
        connection.log.Emit(Event(Error, "Connection error: " + ErrorMessage(err)));
    }

    /** `disconnect()`: clears the shared connection and logs it. */
    method Disconnect()
      modifies connection, connection.log
      ensures connection.Attrs() == AfterDisconnect(old(connection.Attrs()))
      ensures connection.log.events == old(connection.log.events) + [Event(Info, "Disconnected")]
    {
      connection.Disconnect();
      connection.log.Emit(Event(Info, "Disconnected"));
    }

    /** `send(message)`: the connection's `send`, attributes untouched. */
    method Send(message: Message)
      modifies connection.log
      ensures connection.log.events == old(connection.log.events) + [SendEvent(connection.status, Payload(message))]
    {
      connection.Send(message);
    }

    /** `receive()`: the connection's `receive`. */
    method Receive() returns (reply: string)
      modifies connection.log
      ensures reply == ReceiveReply(connection.status)
      ensures connection.log.events == old(connection.log.events) + ReceiveEvents(connection.status)
    {
      reply := connection.Receive();
    }
  }

  /** The line a connected light logs for TURN_ON. */
  lemma TurnOnLine()
    ensures SendEvent(Connected, Payload(Light(TurnOn))) == Event(Info, "Sent: Turn on")
  {
  }

  /** The line a connected motion sensor logs for MOTION_DETECTED. */
  lemma MotionDetectedLine()
    ensures SendEvent(Connected, Payload(Motion(MotionDetected))) == Event(Info, "Sent: Motion detected!")
  {
  }

  /** Two devices on one connection see each other's changes: once the first
      has connected, the second's `send` goes out; once the first has
      disconnected, the second's `send` only warns. */
  method SharedConnection(log: Log, name: string, ip: string, port: int, first: Message, second: Message)
    requires IsValidIp(ip)
    modifies log
    ensures log.events == old(log.events) + [
      ConnectEvent(name, ip, port),
      SendEvent(Connected, Payload(first)),
      Event(Info, "Disconnected"),
      SendEvent(Disconnected, Payload(second))]
  {
    var connection := new Connection.Allocate(log);
    var light := new Device(connection);
    var sensor := new Device(connection);
    ghost var before := log.events;
    ghost var connected := ConnectEvent(name, ip, port);
    ghost var sent := SendEvent(Connected, Payload(first));
    ghost var disconnected := Event(Info, "Disconnected");
    ghost var warned := SendEvent(Disconnected, Payload(second));
    light.Connect(name, ip, port);
    assert connection.status == Connected;
    assert log.events == before + [connected];
    sensor.Send(first);
    assert log.events == before + [connected, sent];
    light.Disconnect();
    assert connection.status == Disconnected;
    assert log.events == before + [connected, sent, disconnected];
    sensor.Send(second);
  }

  /** The demonstration script as written. `Connection()` raises before
      anything else runs, and nothing catches it, so the script stops with
      that error and nothing is logged; the connect, the two sends and the
      disconnect after it are never reached. */
  method Demo(log: Log) returns (r: Outcome<ConnectError>)
    ensures r == Fail(InvalidIpFormat)
  {
    var created := Connection.New(log);
    r := match created
      case Failure(err) => Fail(err)
      case Success(_) => Pass;
  }

  /** The demonstration script after construction, for a connection that
      starts disconnected and an address that passes the check: connect to
      `name` at `ip` on the default port, send one message from a light and one
      from a motion sensor sharing that connection, then disconnect. Both
      sends are logged as sent (TurnOnLine and MotionDetectedLine give their
      text). `during` is the connection's state while the two sends run. */
  method ConnectedDemo(connection: Connection, name: string, ip: string) returns (during: Attributes)
    requires connection.Attrs() == Cleared
    requires IsValidIp(ip)
    modifies connection, connection.log
    ensures during == Attributes(Some(name), Some(ip), Some(DEFAULT_PORT), Connected)
    ensures connection.Attrs() == Cleared
    ensures connection.log.events == old(connection.log.events) + [
      SendEvent(Connected, Payload(Light(TurnOn))),
      SendEvent(Connected, Payload(Motion(MotionDetected)))]
  {
    var outcome := connection.Connect(name, ip);
    during := connection.Attrs();
    var light := new Device(connection);
    light.Send(Light(TurnOn));
    var motionSensor := new Device(connection);
    motionSensor.Send(Motion(MotionDetected));
    connection.Disconnect();
  }

  /** The demonstration script with a connection that starts disconnected,
      connecting to 'user' at 192.168.1.1 on port 8080, which is the state
      `during` the two sends. */
  method IntendedDemo(log: Log) returns (connection: Connection, during: Attributes)
    modifies log
    ensures during == Attributes(Some("user"), Some("192.168.1.1"), Some(8080), Connected)
    ensures fresh(connection) && connection.log == log
    ensures connection.Attrs() == Cleared
    ensures log.events == old(log.events) + [
      SendEvent(Connected, Payload(Light(TurnOn))),
      SendEvent(Connected, Payload(Motion(MotionDetected)))]
  {
    connection := new Connection.Allocate(log);
    AcceptsPrivateAddress();
    during := ConnectedDemo(connection, "user", "192.168.1.1");
  }
}

=== FILE: diagnostics.dfy ===
/** The logging calls of the program, as a record of what was emitted. */
module Diagnostics {

  /** `logging.info`, `logging.warning`, `logging.error`. */
  datatype Level = Info | Warning | Error

  /** One logging call: its level and its formatted text. */
  datatype Event = Event(level: Level, text: string)

  /** The process-wide log that every logging call appends to. */
  class Log {
    var events: seq<Event>

    constructor ()
      ensures events == []
    {
      events := [];
    }

    method Emit(e: Event)
      modifies this
      ensures events == old(events) + [e]
    {
      events := events + [e];
    }
  }
}

=== FILE: ip_address.dfy ===
/** The address check of `Connection._is_valid_ip`: `re.match` of the pattern
    `^\d{1,3}\.\d{1,3}\.\d{1,3}\.\d{1,3}$`. Only the format is checked; the
    groups are never compared with 255. */
module IpAddress {
  import opened Decimal

  /** One `\d{1,3}` group. */
  predicate IsGroup(g: string)
  {
    1 <= |g| <= 3 && AllDigits(g)
  }

  /** The last group, which the closing `$` lets one newline follow. */
  predicate IsLastGroup(g: string)
  {
    || IsGroup(g)
    || (|g| >= 2 && g[|g| - 1] == '\n' && IsGroup(g[..|g| - 1]))
  }

  // ---------------------------------------------------------------------------
  // The pattern, run the way the regular-expression engine runs it
  // ---------------------------------------------------------------------------

  /** How many characters `\d{1,3}` takes, greedily, at the start of `s`:
      all digits, at most three, and no digit left right after a shorter run. */
  function DigitRun(s: string): (n: nat)
    ensures n <= 3 && n <= |s|
    ensures AllDigits(s[..n])
    ensures n < 3 && n < |s| ==> !IsDigit(s[n])
  {
    if |s| >= 1 && IsDigit(s[0]) then
      if |s| >= 2 && IsDigit(s[1]) then
        if |s| >= 3 && IsDigit(s[2]) then 3 else 2
      else 1
    else 0
  }

  /** `$` without the MULTILINE flag: the end of the string, or the position
      just before a newline that ends it. */
  predicate AtEnd(rest: string)
    ensures AtEnd(rest) <==> |rest| <= 1 && forall i :: 0 <= i < |rest| ==> rest[i] == '\n'
  {
    rest == "" || rest == "\n"
  }

  /** Whether `\d{1,3}(\.\d{1,3}){k-1}$` matches at the start of `s`. A shorter
      run of digits never helps, since a digit is neither '.' nor the end, so
      the greedy run is the only one to try. */
  predicate MatchGroups(s: string, k: nat)
    requires k >= 1
    ensures MatchGroups(s, k) ==> |s| > 0 && '0' <= s[0] <= '9'
    decreases k
  {
    var n := DigitRun(s);
    && n >= 1
    && if k == 1 then AtEnd(s[n..])
       else n < |s| && s[n] == '.' && MatchGroups(s[n + 1..], k - 1)
  }

  /** `Connection._is_valid_ip`. */
  predicate IsValidIp(ip: string)
    ensures IsValidIp(ip) ==> |ip| > 0 && '0' <= ip[0] <= '9'
  {
    MatchGroups(ip, 4)
  }

  // ---------------------------------------------------------------------------
  // The reference reading: four fields between dots
  // ---------------------------------------------------------------------------

  /** Position of the first '.' in `s`. */
  function FirstDot(s: string): (i: nat)
    requires '.' in s
    ensures i < |s| && s[i] == '.' && '.' !in s[..i]
  {
    if s[0] == '.' then 0
    else
      var i := FirstDot(s[1..]) + 1;
      assert s[..i] == [s[0]] + s[1..][..i - 1];
      i
  }

  /** The fields joined by single dots. */
  function Join(fields: seq<string>): string
    requires |fields| >= 1
    decreases |fields|
  {
    if |fields| == 1 then fields[0] else fields[0] + "." + Join(fields[1..])
  }

  /** `s.split('.')`: at least one field, no field holding a dot, and the
      fields joined by dots give `s` back. */
  function Split(s: string): (fields: seq<string>)
    ensures |fields| >= 1
    ensures forall i :: 0 <= i < |fields| ==> '.' !in fields[i]
    ensures Join(fields) == s
    decreases |s|
  {
    if '.' !in s then [s]
    else
      var i := FirstDot(s);
      assert s == s[..i] + "." + s[i + 1..];
      [s[..i]] + Split(s[i + 1..])
  }

  /** `k` fields, the first `k - 1` of them groups and the last a last group. */
  predicate FieldsMatch(f: seq<string>, k: nat)
  {
    && |f| == k
    && k >= 1
    && (forall i :: 0 <= i < k - 1 ==> IsGroup(f[i]))
    && IsLastGroup(f[k - 1])
  }

  /** What the pattern describes: four groups of one to three digits joined by
      '.', with at most one newline after the last. */
  predicate IsDottedQuad(s: string)
  {
    FieldsMatch(Split(s), 4)
  }

  // ---------------------------------------------------------------------------
  // The matcher accepts exactly the dotted quads
  // ---------------------------------------------------------------------------

  lemma FirstDotAt(s: string, i: nat)
    requires i < |s| && s[i] == '.' && '.' !in s[..i]
    ensures '.' in s && FirstDot(s) == i
  {
    assert s[i] in s;
  }

  /** Splitting where the first field is known. */
  lemma SplitAt(s: string, i: nat)
    requires i < |s| && s[i] == '.' && '.' !in s[..i]
    ensures Split(s) == [s[..i]] + Split(s[i + 1..])
  {
    FirstDotAt(s, i);
  }

  /** A string of digits holds no dot. */
  lemma DigitsHoldNoDot(g: string)
    requires AllDigits(g)
    ensures '.' !in g
  {
  }

  /** The greedy run ends exactly where a group of digits is followed by a
      non-digit or by the end. */
  lemma DigitRunOfGroup(s: string, i: nat)
    requires i <= |s| && IsGroup(s[..i])
    requires i < |s| ==> !IsDigit(s[i])
    ensures DigitRun(s) == i
  {
    assert s[..i][0] == s[0];
    if i >= 2 { assert s[..i][1] == s[1]; }
    if i >= 3 { assert s[..i][2] == s[2]; }
  }

  /** The one-group case: the pattern `\d{1,3}$`. */
  lemma MatchLastGroupIffField(s: string)
    ensures MatchGroups(s, 1) <==> FieldsMatch(Split(s), 1)
  {
    var n := DigitRun(s);
    if MatchGroups(s, 1) {
      assert s == s[..n] + s[n..];
      DigitsHoldNoDot(s[..n]);
      if s[n..] == "" {
        assert s == s[..n];
      } else {
        assert s[..|s| - 1] == s[..n];
        assert s == s[..n] + "\n";
      }
      assert Split(s) == [s];
    }
    if FieldsMatch(Split(s), 1) {
      assert Split(s) == [s];
      if IsGroup(s) {
        assert s[..|s|] == s;
        DigitRunOfGroup(s, |s|);
      } else {
        DigitRunOfGroup(s, |s| - 1);
      }
    }
  }

  /** With the first field known, the fields match when it is a group and the
      rest match. */
  lemma FieldsMatchCons(s: string, i: nat, k: nat)
    requires k >= 2 && i < |s| && s[i] == '.' && '.' !in s[..i]
    ensures FieldsMatch(Split(s), k) <==> IsGroup(s[..i]) && FieldsMatch(Split(s[i + 1..]), k - 1)
  {
    SplitAt(s, i);
    var f := Split(s);
    var g := Split(s[i + 1..]);
    assert f[0] == s[..i];
    assert f[1..] == g;
    if FieldsMatch(f, k) {
      forall j | 0 <= j < k - 2 ensures IsGroup(g[j]) {
        assert g[j] == f[j + 1];
      }
    }
    if IsGroup(s[..i]) && FieldsMatch(g, k - 1) {
      forall j | 0 <= j < k - 1 ensures IsGroup(f[j]) {
        if j > 0 { assert f[j] == g[j - 1]; }
      }
    }
  }

  lemma {:induction false} MatchGroupsToFields(s: string, k: nat)
    requires k >= 1 && MatchGroups(s, k)
    ensures FieldsMatch(Split(s), k)
    decreases k
  {
    if k == 1 {
      MatchLastGroupIffField(s);
    } else {
      var n := DigitRun(s);
      var rest := s[n + 1..];
      assert n < |s| && s[n] == '.' && MatchGroups(rest, k - 1);
      MatchGroupsToFields(rest, k - 1);
      DigitsHoldNoDot(s[..n]);
      FieldsMatchCons(s, n, k);
    }
  }

  /** More than one field needs a dot. */
  lemma FieldsMatchNeedsDot(s: string, k: nat)
    requires k >= 2 && FieldsMatch(Split(s), k)
    ensures '.' in s
  {
  }

  /** A group, a dot and a match of the remaining groups match `k` groups. */
  lemma MatchGroupsCons(s: string, k: nat, i: nat)
    requires k >= 2 && i < |s| && s[i] == '.' && IsGroup(s[..i])
    requires MatchGroups(s[i + 1..], k - 1)
    ensures MatchGroups(s, k)
  {
    DigitRunOfGroup(s, i);
  }

  lemma {:induction false} FieldsToMatchGroups(s: string, k: nat)
    requires k >= 1 && FieldsMatch(Split(s), k)
    ensures MatchGroups(s, k)
    decreases k, 1
  {
    if k == 1 {
      MatchLastGroupIffField(s);
    } else {
      FieldsMatchNeedsDot(s, k);
      var i := FirstDot(s);
      assert IsGroup(s[..i]) && FieldsMatch(Split(s[i + 1..]), k - 1) by {
        FieldsMatchCons(s, i, k);
      }
      RestToMatchGroups(s[i + 1..], k);
      MatchGroupsCons(s, k, i);
    }
  }

  /** The inductive step of FieldsToMatchGroups, on what follows the first dot. */
  lemma {:induction false} RestToMatchGroups(rest: string, k: nat)
    requires k >= 2 && FieldsMatch(Split(rest), k - 1)
    ensures MatchGroups(rest, k - 1)
    decreases k, 0
  {
    FieldsToMatchGroups(rest, k - 1);
  }

  /** `_is_valid_ip` holds exactly for the dotted quads: the matcher and the
      reading by fields agree on every string. */
  lemma ValidIpIffDottedQuad(s: string)
    ensures IsValidIp(s) <==> IsDottedQuad(s)
  {
    if IsValidIp(s) {
      MatchGroupsToFields(s, 4);
    }
    if IsDottedQuad(s) {
      FieldsToMatchGroups(s, 4);
    }
  }

  lemma {:induction false} SplitJoin(fields: seq<string>)
    requires |fields| >= 1
    requires forall i :: 0 <= i < |fields| ==> '.' !in fields[i]
    ensures Split(Join(fields)) == fields
    decreases |fields|
  {
    if |fields| > 1 {
      var s := Join(fields);
      var rest := Join(fields[1..]);
      var i := |fields[0]|;
      assert s == fields[0] + "." + rest;
      assert s[..i] == fields[0];
      assert s[i + 1..] == rest;
      SplitAt(s, i);
      SplitJoin(fields[1..]);
    }
  }

  /** Four fields joined by dots, written out. */
  lemma JoinFour(f: seq<string>)
    requires |f| == 4
    ensures Join(f) == f[0] + "." + f[1] + "." + f[2] + "." + f[3]
  {
    var t := f[1..];
    var u := t[1..];
    assert u[1..] == [f[3]];
    assert Join(u) == f[2] + "." + f[3];
    assert Join(t) == f[1] + "." + (f[2] + "." + f[3]);
  }

  /** Joining one more field appends a dot and that field. */
  lemma {:induction false} JoinSnoc(f: seq<string>, x: string)
    requires |f| >= 1
    ensures Join(f + [x]) == Join(f) + "." + x
    decreases |f|
  {
    if |f| == 1 {
      assert (f + [x])[1..] == [x];
    } else {
      assert (f + [x])[1..] == f[1..] + [x];
      JoinSnoc(f[1..], x);
      var r := Join(f[1..]);
      assert f[0] + "." + (r + "." + x) == f[0] + "." + r + "." + x;
    }
  }

  /** Five fields joined by dots, written out. */
  lemma JoinFive(a: string, b: string, c: string, d: string, e: string)
    ensures Join([a, b, c, d, e]) == a + "." + b + "." + c + "." + d + "." + e
  {
    var f := [a, b, c, d];
    assert f + [e] == [a, b, c, d, e];
    JoinSnoc(f, e);
    JoinFour(f);
  }

  /** Four fields whose last is a group with a suffix, written out. */
  lemma JoinFourSuffixed(a: string, b: string, c: string, d: string, x: string)
    ensures Join([a, b, c, d + x]) == a + "." + b + "." + c + "." + d + x
  {
    JoinFour([a, b, c, d + x]);
    var prefix := a + "." + b + "." + c + ".";
    assert prefix + (d + x) == prefix + d + x;
  }

  /** Fields without dots that match as four groups join into an accepted
      address. */
  lemma JoinedFieldsAccepted(f: seq<string>)
    requires forall i :: 0 <= i < |f| ==> '.' !in f[i]
    requires FieldsMatch(f, 4)
    ensures IsValidIp(Join(f))
  {
    SplitJoin(f);
    ValidIpIffDottedQuad(Join(f));
  }

  /** Any four groups joined by dots are accepted, whatever their numeric
      value. */
  lemma FourGroupsAccepted(a: string, b: string, c: string, d: string)
    requires IsGroup(a) && IsGroup(b) && IsGroup(c) && IsGroup(d)
    ensures IsValidIp(a + "." + b + "." + c + "." + d)
  {
    DigitsHoldNoDot(a);
    DigitsHoldNoDot(b);
    DigitsHoldNoDot(c);
    DigitsHoldNoDot(d);
    var f := [a, b, c, d];
    JoinFour(f);
    JoinedFieldsAccepted(f);
  }

  /** A group followed by one newline is a last group, still without a dot. */
  lemma GroupNewlineIsLast(d: string)
    requires IsGroup(d)
    ensures IsLastGroup(d + "\n") && '.' !in d + "\n"
  {
    var dn := d + "\n";
    assert dn[..|dn| - 1] == d;
    DigitsHoldNoDot(d);
  }

  /** The same four groups followed by one newline are accepted too. */
  lemma FourGroupsNewlineAccepted(a: string, b: string, c: string, d: string)
    requires IsGroup(a) && IsGroup(b) && IsGroup(c) && IsGroup(d)
    ensures IsValidIp(a + "." + b + "." + c + "." + d + "\n")
  {
    DigitsHoldNoDot(a);
    DigitsHoldNoDot(b);
    DigitsHoldNoDot(c);
    GroupNewlineIsLast(d);
    JoinedFieldsAccepted([a, b, c, d + "\n"]);
    JoinFourSuffixed(a, b, c, d, "\n");
  }

  /** Fields without dots that do not match as four groups join into a
      rejected string. */
  lemma JoinedFieldsRejected(f: seq<string>)
    requires |f| >= 1 && forall i :: 0 <= i < |f| ==> '.' !in f[i]
    requires !FieldsMatch(f, 4)
    ensures !IsValidIp(Join(f))
  {
    SplitJoin(f);
    ValidIpIffDottedQuad(Join(f));
  }

  /** A group followed by two newlines is no last group. */
  lemma GroupTwoNewlinesNotLast(d: string)
    requires IsGroup(d)
    ensures !IsLastGroup(d + "\n\n") && '.' !in d + "\n\n"
  {
    var x := d + "\n\n";
    assert x[|x| - 1] == '\n';
    assert x[..|x| - 1][|x| - 2] == '\n';
    DigitsHoldNoDot(d);
    assert x[|x| - 2] == '\n' && x[|x| - 1] == '\n';
  }

  /** `$` admits no more than one final newline. */
  lemma TwoNewlinesRejected(a: string, b: string, c: string, d: string)
    requires IsGroup(a) && IsGroup(b) && IsGroup(c) && IsGroup(d)
    ensures !IsValidIp(a + "." + b + "." + c + "." + d + "\n\n")
  {
    DigitsHoldNoDot(a);
    DigitsHoldNoDot(b);
    DigitsHoldNoDot(c);
    GroupTwoNewlinesNotLast(d);
    JoinedFieldsRejected([a, b, c, d + "\n\n"]);
    JoinFourSuffixed(a, b, c, d, "\n\n");
  }

  /** Five groups are one too many. */
  lemma FiveGroupsRejected(a: string, b: string, c: string, d: string, e: string)
    requires IsGroup(a) && IsGroup(b) && IsGroup(c) && IsGroup(d) && IsGroup(e)
    ensures !IsValidIp(a + "." + b + "." + c + "." + d + "." + e)
  {
    DigitsHoldNoDot(a);
    DigitsHoldNoDot(b);
    DigitsHoldNoDot(c);
    DigitsHoldNoDot(d);
    DigitsHoldNoDot(e);
    JoinedFieldsRejected([a, b, c, d, e]);
    JoinFive(a, b, c, d, e);
  }

  /** Every accepted string is four groups joined by dots, the last perhaps
      followed by one newline. */
  lemma ValidIpIsFourGroups(s: string)
    requires IsValidIp(s)
    ensures var f := Split(s);
      && |f| == 4
      && s == f[0] + "." + f[1] + "." + f[2] + "." + f[3]
      && IsGroup(f[0]) && IsGroup(f[1]) && IsGroup(f[2]) && IsLastGroup(f[3])
  {
    ValidIpIffDottedQuad(s);
    JoinFour(Split(s));
  }

  lemma {:induction false} MatchGroupsLength(s: string, k: nat)
    requires k >= 1 && MatchGroups(s, k)
    ensures 2 * k - 1 <= |s| <= 4 * k
    decreases k
  {
    if k > 1 {
      MatchGroupsLength(s[DigitRun(s) + 1..], k - 1);
    }
  }

  /** An accepted address is 7 to 15 characters long, 16 with its newline. */
  lemma ValidIpLength(s: string)
    requires IsValidIp(s)
    ensures 7 <= |s| <= 16
  {
    MatchGroupsLength(s, 4);
  }

  /** There is no range check: any three digits pass as a group. */
  lemma AcceptsOutOfRange()
    ensures IsValidIp("999.999.999.999")
  {
    var s := "999.999.999.999";
    assert s[4..] == "999.999.999";
    assert s[4..][4..] == "999.999";
    assert s[4..][4..][4..] == "999";
  }

  lemma AcceptsPrivateAddress()
    ensures IsValidIp("192.168.1.1")
  {
    var s := "192.168.1.1";
    assert s[4..] == "168.1.1";
    assert s[4..][4..] == "1.1";
    assert s[4..][4..][2..] == "1";
  }

  /** A group of one digit: the match goes on after the dot that follows it,
      or ends there for the last group. */
  lemma OneDigitGroup(s: string, k: nat)
    requires k >= 1 && |s| >= 1 && IsDigit(s[0]) && (|s| == 1 || !IsDigit(s[1]))
    ensures MatchGroups(s, k) <==>
      if k == 1 then AtEnd(s[1..]) else |s| >= 2 && s[1] == '.' && MatchGroups(s[2..], k - 1)
  {
    assert DigitRun(s) == 1;
  }

  /** A run of four digits at the start never matches. */
  lemma LongRunRejected(s: string, k: nat)
    requires k >= 1 && |s| >= 4 && IsDigit(s[0]) && IsDigit(s[1]) && IsDigit(s[2]) && IsDigit(s[3])
    ensures !MatchGroups(s, k)
  {
    assert DigitRun(s) == 3;
    assert s[3..][0] == s[3];
  }

  /** `$` admits one newline at the very end. */
  lemma AcceptsOneTrailingNewline()
    ensures IsValidIp("1.2.3.4\n")
  {
    var s := "1.2.3.4\n";
    var t := "2.3.4\n";
    var u := "3.4\n";
    var v := "4\n";
    assert s[2..] == t && t[2..] == u && u[2..] == v && v[1..] == "\n";
    OneDigitGroup(s, 4);
    OneDigitGroup(t, 3);
    OneDigitGroup(u, 2);
    OneDigitGroup(v, 1);
  }

  /** A group has at most three digits. */
  lemma RejectsLongGroup()
    ensures !IsValidIp("1234.1.1.1")
  {
    LongRunRejected("1234.1.1.1", 4);
  }

  /** Three groups are too few. */
  lemma RejectsThreeGroups()
    ensures !IsValidIp("1.2.3")
  {
    var s := "1.2.3";
    var t := "2.3";
    var u := "3";
    assert s[2..] == t && t[2..] == u;
    OneDigitGroup(u, 2);
    assert !MatchGroups(u, 2);
    OneDigitGroup(t, 3);
    assert !MatchGroups(t, 3);
    OneDigitGroup(s, 4);
  }

  /** Nothing but digits and dots, from the first character on. */
  lemma RejectsNonAddresses()
    ensures !IsValidIp("")
    ensures !IsValidIp("not-an-ip")
    ensures !IsValidIp(" 1.2.3.4")
  {
    assert "not-an-ip"[0] == 'n';
    assert " 1.2.3.4"[0] == ' ';
  }
}

=== FILE: messages.dfy ===
/** What a device may send: a plain string or a member of one of the two
    message enums, which is sent as its value. */
module Messages {

  /** `LightMessage`. */
  datatype LightMessage = TurnOn | TurnOff

  /** `MotionMessage`. */
  datatype MotionMessage = MotionDetected | NoMotion

  /** The argument of `send`: a `str`, or an `Enum` member of either catalog. */
  datatype Message = Raw(text: string) | Light(light: LightMessage) | Motion(motion: MotionMessage)

  /** `LightMessage.value`. */
  function LightValue(m: LightMessage): (v: string)
    ensures v == "Turn on" <==> m == TurnOn
    ensures v == "Turn off" <==> m == TurnOff
  {
    match m
    case TurnOn => "Turn on"
    case TurnOff => "Turn off"
  }

  /** `MotionMessage.value`. */
  function MotionValue(m: MotionMessage): (v: string)
    ensures v == "Motion detected!" <==> m == MotionDetected
    ensures v == "No motion detected." <==> m == NoMotion
  {
    match m
    case MotionDetected => "Motion detected!"
    case NoMotion => "No motion detected."
  }

  /** The string `send` passes on: a string as it is, an enum member replaced
      by its value. */
  function Payload(m: Message): (p: string)
    ensures m.Raw? ==> p == m.text
    ensures m.Light? ==> p == LightValue(m.light)
    ensures m.Motion? ==> p == MotionValue(m.motion)
  {
    match m
    case Raw(text) => text
    case Light(l) => LightValue(l)
    case Motion(k) => MotionValue(k)
  }

  /** The four enum values are pairwise different, so the payload of an enum
      member tells which member was sent. */
  lemma CatalogPayloadsDistinct(m1: Message, m2: Message)
    requires !m1.Raw? && !m2.Raw?
    ensures Payload(m1) == Payload(m2) <==> m1 == m2
  {
    assert |"Turn on"| != |"Turn off"|;
    assert "Motion detected!"[0] != "No motion detected."[0];
  }
}

=== FILE: wrappers.dfy ===
/** Option, Result and Outcome: the optional attributes of a connection and
    the error that `connect` raises, written as values. */
module Wrappers {

  /** An attribute that may be `None`. */
  datatype Option<+T> = None | Some(value: T)

  /** A computed value, or the exception raised instead of it. */
  datatype Result<+R, +E> = Success(value: R) | Failure(error: E)

  /** A call that returns nothing, or the exception it raised. */
  datatype Outcome<+E> = Pass | Fail(error: E)
}
